=== FILE: README.md ===
# InSitu extraction core, modelled in Dafny

This project models the pure logic of `InSitu.extract_data` (`extractDataSrc/InSitu.py`). That
method fetches solar-wind proton speed (`V_p`), proton density (`N_p`) or the magnetic-field Z
component (`B_z`) from a HAPI data service. It cleans the records into a `Time`/value table and
writes it as CSV, plus an optional PNG plot, under a file name dated ten days after the
requested start. The model covers four parts:

- **Instrument resolver** (`instruments.dfy`). It maps a code to its dataset, parameter,
  mission and operational-time key, and rejects unknown codes.
- **Record transformers** (`transform.dfy`).
  - Both paths drop records that carry the "no data" sentinel and keep the rest in input order.
  - The scalar path tests the value itself. It stores each stamp in a 22-byte field and parses
    it with `%Y-%m-%dT%H:%M:%S.00`.
  - The vector path tests and keeps component index 2, rounded. It parses stamps with
    `%Y-%m-%dT%H:%M:%S.000Z`.
  - A malformed stamp is an error for the whole call; it is never skipped.
- **Output path builder** (`paths.dfy`, `calendar.dfy`, `timestamps.dfy`). It parses the start
  time, adds ten days with Gregorian carry into the next month and year (leap years included),
  prints `YYYYMMDD`, normalises the target directory and builds the `.csv` destination.
- **Extension rewriter** (`paths.dfy`). This is `_change_extension_to_png`: it uses `rfind(".")`,
  compares the suffix with `.csv` ignoring case, then either splices in the new extension or
  raises.

`insitu.dfy` chains these in the order `extract_data` runs them. The collaborators are
parameters:
- the operational-time check is a yes/no function of (key, start);
- the HAPI fetch is a function of the request;
- the sentinel value and `round(x, 3)` are values supplied by the caller.

`scenarios.dfy` works the model on concrete inputs. For example, a start of 2021-03-01 writes to
`data_processed/in_situ/20210311_soho_V_p.csv`.

The two record layouts are the extended complete representation of ISO 8601 (section 4.3.2 of
ISO 8601:2004), followed by a literal suffix (`.00` for scalar records, `.000Z` for vector
records). The start time has the same fields with a space in place of the 'T', and no suffix.
The date arithmetic follows Python's `datetime`:
- proleptic Gregorian calendar;
- years 1 to 9999;
- `date + timedelta(days = n)` is ordinal + n.

Two details of the code are easy to miss; the model follows them:
- The scalar path stores stamps in an `S22` field. This cuts every stamp to its first 22
  characters before parsing, so a longer stamp whose first 22 characters are canonical still
  parses (`Transform.ScalarStampCutToWidth`).
- The PNG rewrite compares the suffix case-insensitively (`.CSV` is accepted). It is not an
  exact `.csv` match.

## Model

| member | source | states |
|---|---|---|
| Instruments.Resolve | extractDataSrc/InSitu.py:22-38 | succeeds exactly for "V_p", "N_p", "B_z" and otherwise fails naming the code; V_p/N_p give SOHO_CELIAS-PM_30S, the code as parameter, soho, soho_celias; B_z gives WI_H0_MFI@0, BGSM, wind, wind_mfi; the scalar path is chosen exactly for the proton codes |
| InSitu.UnknownInstrumentFailsBeforeFetch | extractDataSrc/InSitu.py:37-40 | an unknown code makes the whole call fail with that code, whatever the operational-time check and the fetch would do |
| InSitu.OutOfOperationalTimeFailsBeforeFetch | extractDataSrc/InSitu.py:26-40 | a start outside the resolved mission's operational time makes the call fail with that key, whatever the fetch would return |
| InSitu.TransformFetched | extractDataSrc/InSitu.py:46-49 | scalar records for a scalar-shaped instrument give exactly the scalar transformer's table, vector records for a vector-shaped one exactly the vector transformer's, and a shape mismatch is the malformed-data error; on success the column is the instrument and scalar rows carry no sentinel |
| InSitu.ScalarDispatchRows | extractDataSrc/InSitu.py:46-47 | a scalar-shaped success came from scalar records, and its rows are the records without the "no data" value, in order, each with its parsed 22-character stamp and unchanged value |
| InSitu.VectorDispatchRows | extractDataSrc/InSitu.py:48-49 | a vector-shaped success came from vector records, and its rows are the records whose Z component is not the "no data" value, in order, each with its parsed stamp and rounded Z component |
| InSitu.ProtonTableRows | extractDataSrc/InSitu.py:40-47 | for V_p and N_p, a successful call fetched scalar records and its table is their scalar dispatch |
| InSitu.FieldTableRows | extractDataSrc/InSitu.py:40-49 | for B_z, a successful call fetched vector records and its table is their vector dispatch |
| Transform.Filter | extractDataSrc/InSitu.py:100 | the comprehension output is no longer than its input and every element passes the test |
| Transform.KeptIndices | extractDataSrc/InSitu.py:100 | the kept positions are strictly increasing, in range, pass the test, and include every position that passes |
| Transform.FilterIsKeptSubsequence | extractDataSrc/InSitu.py:100 | the filter output is exactly the input at the kept positions, in input order (an order-preserving subsequence dropping exactly the rejected records) |
| Transform.FilterAppend | extractDataSrc/InSitu.py:100 | filtering a concatenation is the concatenation of the filtered parts |
| Transform.FixedWidth | extractDataSrc/InSitu.py:101 | an `S22` field keeps a prefix of the stamp: exactly its first 22 characters when it is longer, the whole stamp otherwise |
| Transform.ParseRows | extractDataSrc/InSitu.py:104-105 | succeeds exactly when every stamp parses; then one row per reading in order with its parsed time and value; otherwise the error is the first failing stamp's |
| Transform.TransformScalar | extractDataSrc/InSitu.py:83-107 | a successful table is named after the instrument, has no more rows than records, and holds no sentinel value; any failure is a timestamp error |
| Transform.TransformScalarRows | extractDataSrc/InSitu.py:99-105 | the scalar table succeeds exactly when every non-sentinel record's 22-character stamp parses, and its rows are those records in input order with their values unchanged |
| Transform.ScalarStampCutToWidth | extractDataSrc/InSitu.py:101-105 | a canonical scalar stamp followed by any extra text still parses on the scalar path, because only 22 characters are kept |
| Transform.CheckComponents | extractDataSrc/InSitu.py:126 | succeeds exactly when every record has a component at index 2; otherwise fails naming a record without one |
| Transform.CollectComponents | extractDataSrc/InSitu.py:128-133 | the loop yields one reading per surviving record, in order, with that record's stamp and its rounded index-2 component; this is exactly the reading list the vector transformer tabulates |
| Transform.TransformVector | extractDataSrc/InSitu.py:110-139 | a successful table is named after the instrument and has no more rows than records; failures are a missing component or a timestamp error, and any record without index 2 makes it the missing-component error, ahead of any stamp parse |
| Transform.TransformVectorRows | extractDataSrc/InSitu.py:126-137 | the vector table succeeds exactly when all records have index 2 and every non-sentinel record's stamp parses; its rows are those records in order, each with its own rounded index-2 component |
| Transform.KeptIndicesAgree | extractDataSrc/InSitu.py:126 | two filters whose tests agree position by position keep the same positions |
| Transform.VectorUsesOnlyZ | extractDataSrc/InSitu.py:126-133 | records agreeing on stamp and index-2 component give the same result, whatever their other components |
| Timestamps.Parse | extractDataSrc/InSitu.py:105 | a parse yields a valid datetime from a text of the layout's exact length, separator and suffix; anything else is a timestamp error naming the text |
| Timestamps.ParseFormat | extractDataSrc/InSitu.py:105 | parsing the canonical printing of a valid datetime gives it back |
| Timestamps.FormatParse | extractDataSrc/InSitu.py:137 | any text a layout accepts is the canonical printing of what it parses to |
| Timestamps.ParseAcceptsExactly | extractDataSrc/InSitu.py:54 | a layout accepts a text with result t exactly when t is valid and the text is t's canonical printing |
| Timestamps.CompactDate | extractDataSrc/InSitu.py:56 | `%Y%m%d` is eight digits that read back as the year, month and day |
| Digits.ValueOfPad | extractDataSrc/InSitu.py:56 | a number printed zero-padded to a width it fits reads back as itself |
| Digits.PadOfValue | extractDataSrc/InSitu.py:54 | every fixed-width digit field is the padded printing of its value |
| Calendar.AddDays | extractDataSrc/InSitu.py:55 | stepping day by day stays on the calendar and never goes back a year |
| Calendar.ShiftDays | extractDataSrc/InSitu.py:55 | adding n days yields the valid date whose ordinal is n more; it fails, with the overflow error, exactly when that ordinal is past 9999-12-31 |
| Calendar.NextDayNumber | extractDataSrc/InSitu.py:55 | the next day is exactly one ordinal later, across month, year and leap-day ends |
| Calendar.AddDaysNumber | extractDataSrc/InSitu.py:55 | adding n days moves the ordinal by exactly n |
| Calendar.DayNumberInjective | extractDataSrc/InSitu.py:55 | different calendar days have different ordinals |
| Calendar.DaysBeforeYearClosedForm | extractDataSrc/InSitu.py:55 | counting year by year agrees with the closed form 365(y-1) + (y-1)/4 - (y-1)/100 + (y-1)/400 |
| Paths.EventDate | extractDataSrc/InSitu.py:54-56 | success means the start parsed and the result is eight digits spelling a valid date; failure is a parse error on the start or an overflow, and an unparsable start is always the parse error, raised before any date arithmetic |
| Paths.EventDateIsTenDaysLater | extractDataSrc/InSitu.py:54-56 | the event date is the day whose ordinal is the start date's plus 10; it fails exactly for starts on 9999-12-22 or later |
| Paths.EventDateIgnoresTime | extractDataSrc/InSitu.py:54-56 | starts on the same day give the same event date whatever the time of day |
| Paths.TargetDir | extractDataSrc/InSitu.py:58-61 | always ends in '/'; a missing or empty directory gives `data_processed/in_situ/`; a given one is kept, with at most one '/' appended, and unchanged if it already ends in '/' |
| Paths.Destination | extractDataSrc/InSitu.py:63-64 | the destination starts with the target directory and ends in ".csv" |
| Paths.LastIndexOf | extractDataSrc/InSitu.py:153 | `rfind` gives a position holding the character with none after it, or none when the character is absent |
| Paths.Lower | extractDataSrc/InSitu.py:155 | lower-casing keeps the length, and a text lower-cases to ".csv" exactly when it is '.' followed by c, s, v each in either case |
| Paths.ChangeExtension | extractDataSrc/InSitu.py:142-160 | every failure is the not-a-CSV error naming the file |
| Paths.ChangeExtensionIffCsvSuffix | extractDataSrc/InSitu.py:153-158 | the rewrite succeeds exactly when the name ends in ".csv" in any letter case (so a name without a dot fails), and then replaces those four characters with '.' and the new extension |
| Paths.ChangeExtensionOfDestination | extractDataSrc/InSitu.py:63-64 | the rewrite never fails on a built destination and replaces its ".csv" with the new extension |
| InSitu.PngPath | extractDataSrc/InSitu.py:70-76 | a PNG name is produced exactly when a plot is wanted |
| InSitu.PngPathOfCsv | extractDataSrc/InSitu.py:76 | a name ending in ".csv" always has a PNG name with the same stem |
| InSitu.ExtractCsv | extractDataSrc/InSitu.py:22-64 | success needs a known code, a start inside that mission's operational time and a parsable start; the table is named after the instrument and the destination is inside the target directory and ends in ".csv" |
| InSitu.ExtractCsvComposition | extractDataSrc/InSitu.py:22-64 | a successful call resolved the code, passed the operational-time check, fetched the resolved dataset and parameter for start and stop, transformed that data into the returned table, and wrote to the target directory + event date + "_" + mission + "_" + code + ".csv" |
| InSitu.FetchFailurePropagates | extractDataSrc/InSitu.py:40 | for a known code inside its operational time, a failing fetch makes the whole call fail with the fetch's own error |
| InSitu.ExtractData | extractDataSrc/InSitu.py:15-80 | success needs a known code; a PNG name is present exactly when a plot is wanted |
| InSitu.PngNameNeverFails | extractDataSrc/InSitu.py:70-77 | computing the PNG name never turns success into failure (the plot itself is not modelled); the table and CSV path are unchanged and the PNG path is the CSV stem with ".png" |
| Scenarios.ScalarStampParses | extractDataSrc/InSitu.py:105 | "2021-03-04T10:00:00.00" parses to 2021-03-04 10:00:00 |
| Scenarios.ProtonSpeedScenario | extractDataSrc/InSitu.py:83-107 | a V_p record of 400.5 followed by a sentinel record gives the one-row table (2021-03-04 10:00:00, 400.5) |
| Scenarios.EventDateScenario | extractDataSrc/InSitu.py:54-56 | a start of "2021-03-01 00:00:00" gives the event date "20210311" |
| Scenarios.DefaultDestinationScenario | extractDataSrc/InSitu.py:58-64 | the default directory, 20210311, soho and V_p give `data_processed/in_situ/20210311_soho_V_p.csv` |
| Scenarios.PngNameScenario | extractDataSrc/InSitu.py:153-158 | ".csv" and ".CSV" names are rewritten to ".png"; "data.csv.bak" and "data_csv" are rejected |
| Scenarios.UnknownCodeScenario | extractDataSrc/InSitu.py:37-38 | the code "T_e" is rejected |
| Scenarios.LastYearOverflowScenario | extractDataSrc/InSitu.py:55 | a start of 9999-12-22 overflows when ten days are added |

## Left out

- The HAPI fetch (`get_hapi_data`, line 40) and its server URL. The fetch is the caller-supplied function `Services.fetch`, which returns records or an error (`FetchFailed`); its module is not part of this model, and its error propagates unchanged.
- `check_operational_time` (lines 26, 31, 36). It is the caller-supplied predicate `Services.inOperationalTime`; its module is not part of this model.
- Floating-point values. Measurements have an abstract type with equality, so NaN and IEEE comparison are not modelled. `round(x, 3)` (line 132) is the caller-supplied `Services.round`, whose result is not constrained.
- Fetched data of the wrong shape for the instrument (scalar records on the vector path or the reverse) is a `MalformedData` error. The numpy behaviour in that case is not modelled.
- pandas/numpy table construction, the UTF-8 decoding of byte stamps (stamps are character strings), NUL stripping in `S22` fields, and `to_csv` (line 66) are not modelled.
- The plot (lines 73-77: `px.scatter`, `write_image`) is not modelled; only the PNG file name is.
- The verbose progress messages are not modelled.
- The leniency of `strptime`/`to_datetime` is not modelled. Only the canonical fixed-width form is accepted: no single-digit fields, and no seconds 60 or 61.
- pandas' narrower `Timestamp` range (years 1677-2262) is not modelled. Parsed stamps range over Python's years 1-9999.
- Timestamps.CompactDate: always zero-pads the year to four digits, because `strftime("%Y")` for years below 1000 depends on the platform.
- Paths.Lower: lower-cases ASCII letters only, because no other character lower-cases to part of ".csv".
- The text of the unknown-instrument `ValueError` message is not modelled; the error carries the rejected code.
- Error payloads are chosen by the model, not taken from the source's messages: `MissingComponent` names the record's stamp where Python's `IndexError` names none, `NotCsv` names the file where the `ValueError` has a fixed text, and `OutOfOperationalTime` carries the key and start where the collaborator raises whatever it raises.
- Transform.ParseRows: reports the first failing stamp, because pandas' choice of stamp in its error message is not specified.

=== FILE: calendar.dfy ===
/**
 * Proleptic Gregorian calendar dates with the range and arithmetic of Python's `datetime`:
 * years 1..9999, and `date + timedelta(days = n)` computed as ordinal + n.
 */
module Calendar {
  import opened Wrappers
  import opened Errors

  const MinYear := 1
  const MaxYear := 9999

  datatype Date = Date(year: int, month: int, day: int)

  predicate IsLeapYear(y: int) {
    y % 4 == 0 && (y % 100 != 0 || y % 400 == 0)
  }

  function DaysInYear(y: int): int {
    if IsLeapYear(y) then 366 else 365
  }

  function DaysInMonth(y: int, m: int): (n: int)
    requires 1 <= m <= 12
    ensures 28 <= n <= 31
  {
    if m == 2 then (if IsLeapYear(y) then 29 else 28)
    else if m == 4 || m == 6 || m == 9 || m == 11 then 30
    else 31
  }

  /** A real calendar day, with no upper bound on the year. */
  predicate OnCalendar(d: Date) {
    && MinYear <= d.year
    && 1 <= d.month <= 12
    && 1 <= d.day <= DaysInMonth(d.year, d.month)
  }

  /** A day Python's `date` can represent. */
  predicate ValidDate(d: Date) {
    OnCalendar(d) && d.year <= MaxYear
  }

  /** Days in the year before the first of month `m` (the `_DAYS_BEFORE_MONTH` table plus Feb 29). */
  function DaysBeforeMonth(y: int, m: int): int
    requires 1 <= m <= 12
  {
    var table := [0, 31, 59, 90, 120, 151, 181, 212, 243, 273, 304, 334];
    table[m - 1] + (if m > 2 && IsLeapYear(y) then 1 else 0)
  }

  /** Days in all years before year `y`, counted year by year from year 1. */
  function DaysBeforeYear(y: int): nat
    requires y >= MinYear
    decreases y
  {
    if y == MinYear then 0 else DaysBeforeYear(y - 1) + DaysInYear(y - 1)
  }

  /** The ordinal of a day: 0001-01-01 is day 1 (Python's `date.toordinal`). */
  function DayNumber(d: Date): int
    requires OnCalendar(d)
  {
    DaysBeforeYear(d.year) + DaysBeforeMonth(d.year, d.month) + d.day
  }

  /** The following calendar day. */
  function NextDay(d: Date): (r: Date)
    requires OnCalendar(d)
    ensures OnCalendar(r)
  {
    if d.day < DaysInMonth(d.year, d.month) then Date(d.year, d.month, d.day + 1)
    else if d.month < 12 then Date(d.year, d.month + 1, 1)
    else Date(d.year + 1, 1, 1)
  }

  /** The calendar day `n` days after `d`, ignoring the year limit. */
  function AddDays(d: Date, n: nat): (r: Date)
    requires OnCalendar(d)
    ensures OnCalendar(r)
    ensures r.year >= d.year
    decreases n
  {
    if n == 0 then d else AddDays(NextDay(d), n - 1)
  }

  /** The last day Python's `date` can represent. */
  const LastDate := Date(MaxYear, 12, 31)

  /**
   * `date + timedelta(days = n)`: the valid date whose ordinal is n more, or an overflow exactly
   * when that ordinal lies beyond 9999-12-31.
   */
  function ShiftDays(d: Date, n: nat): (r: Result<Date, Error>)
    requires ValidDate(d)
    ensures r.Success? ==> ValidDate(r.value) && DayNumber(r.value) == DayNumber(d) + n
    ensures r.Failure? <==> DayNumber(d) + n > DayNumber(LastDate)
    ensures r.Failure? ==> r.error == DateOverflow
  {
    var e := AddDays(d, n);
    AddDaysNumber(d, n);
    WithinRangeByNumber(e);
    if e.year > MaxYear then Failure(DateOverflow) else Success(e)
  }

  lemma DaysBeforeMonthSpansYear(y: int, m: int)
    requires 1 <= m <= 12
    ensures DaysBeforeMonth(y, m) + DaysInMonth(y, m) <= DaysInYear(y)
    ensures m < 12 ==> DaysBeforeMonth(y, m + 1) == DaysBeforeMonth(y, m) + DaysInMonth(y, m)
    ensures m == 12 ==> DaysBeforeMonth(y, m) + DaysInMonth(y, m) == DaysInYear(y)
  {
  }

  /** The next day is exactly one ordinal later, across month and year (and leap-year) ends. */
  lemma NextDayNumber(d: Date)
    requires OnCalendar(d)
    ensures DayNumber(NextDay(d)) == DayNumber(d) + 1
  {
    DaysBeforeMonthSpansYear(d.year, d.month);
  }

  /** Adding `n` days moves the ordinal by exactly `n`. */
  lemma {:induction false} AddDaysNumber(d: Date, n: nat)
    requires OnCalendar(d)
    ensures DayNumber(AddDays(d, n)) == DayNumber(d) + n
    decreases n
  {
    if n > 0 {
      NextDayNumber(d);
      AddDaysNumber(NextDay(d), n - 1);
    }
  }

  lemma {:induction false} DaysBeforeYearMonotone(a: int, b: int)
    requires MinYear <= a <= b
    ensures DaysBeforeYear(a) + (if a < b then DaysInYear(a) else 0) <= DaysBeforeYear(b)
    decreases b - a
  {
    if a < b - 1 {
      DaysBeforeYearMonotone(a, b - 1);
    }
  }

  lemma {:induction false} EarlierDayHasSmallerNumber(a: Date, b: Date)
    requires OnCalendar(a) && OnCalendar(b)
    requires a.year < b.year
      || (a.year == b.year && a.month < b.month)
      || (a.year == b.year && a.month == b.month && a.day < b.day)
    ensures DayNumber(a) < DayNumber(b)
  {
    if a.year < b.year {
      DaysBeforeMonthSpansYear(a.year, a.month);
      DaysBeforeYearMonotone(a.year, b.year);
    } else if a.month < b.month {
      var m := a.month;
      while m < b.month
        invariant a.month <= m <= b.month
        invariant DaysBeforeMonth(a.year, a.month) + (if m > a.month then DaysInMonth(a.year, a.month) else 0)
                  <= DaysBeforeMonth(a.year, m)
      {
        DaysBeforeMonthSpansYear(a.year, m);
        m := m + 1;
      }
    }
  }

  /** Different days have different ordinals, so "n days later" names exactly one day. */
  lemma DayNumberInjective(a: Date, b: Date)
    requires OnCalendar(a) && OnCalendar(b)
    requires DayNumber(a) == DayNumber(b)
    ensures a == b
  {
    if a != b {
      if a.year < b.year || (a.year == b.year && a.month < b.month)
        || (a.year == b.year && a.month == b.month && a.day < b.day) {
        EarlierDayHasSmallerNumber(a, b);
      } else {
        EarlierDayHasSmallerNumber(b, a);
      }
    }
  }

  /** Python's closed form for the days before year `y` agrees with counting year by year. */
  lemma {:induction false} DaysBeforeYearClosedForm(y: int)
    requires y >= MinYear
    ensures DaysBeforeYear(y) == 365 * (y - 1) + (y - 1) / 4 - (y - 1) / 100 + (y - 1) / 400
    decreases y
  {
    if y > MinYear {
      DaysBeforeYearClosedForm(y - 1);
      LeapCountStep(y - 2);
    }
  }

  /** The leap-day terms of the closed form grow by one exactly at the years that are leap years. */
  lemma LeapCountStep(k: nat)
    ensures (k + 1) / 4 - (k + 1) / 100 + (k + 1) / 400
         == k / 4 - k / 100 + k / 400 + (if IsLeapYear(k + 1) then 1 else 0)
  {
    QuotientStep4(k);
    QuotientStep100(k);
    QuotientStep400(k);
  }

  lemma QuotientStep4(k: nat)
    ensures (k + 1) / 4 == k / 4 + (if (k + 1) % 4 == 0 then 1 else 0)
  {
  }

  lemma QuotientStep100(k: nat)
    ensures (k + 1) / 100 == k / 100 + (if (k + 1) % 100 == 0 then 1 else 0)
  {
  }

  lemma QuotientStep400(k: nat)
    ensures (k + 1) / 400 == k / 400 + (if (k + 1) % 400 == 0 then 1 else 0)
  {
  }

  /** A date on the calendar is at most 9999-12-31 exactly when its ordinal is at most that day's. */
  lemma WithinRangeByNumber(d: Date)
    requires OnCalendar(d)
    ensures d.year <= MaxYear <==> DayNumber(d) <= DayNumber(LastDate)
  {
    if d.year > MaxYear {
      EarlierDayHasSmallerNumber(LastDate, d);
    } else if d != LastDate {
      EarlierDayHasSmallerNumber(d, LastDate);
    }
  }
}

=== FILE: digits.dfy ===
/** Fixed-width decimal fields, as read by `%Y`/`%m`/`%d`/`%H`/`%M`/`%S` and written by `strftime`. */
module Digits {

  predicate IsDigit(c: char) {
    '0' <= c <= '9'
  }

  predicate AllDigits(s: string) {
    forall i :: 0 <= i < |s| ==> IsDigit(s[i])
  }

  function Pow10(k: nat): (p: nat)
    ensures p >= 1
  {
    if k == 0 then 1 else 10 * Pow10(k - 1)
  }

  function DigitChar(d: nat): (c: char)
    requires d < 10
    ensures IsDigit(c)
  {
    ('0' as int + d) as char
  }

  function DigitValue(c: char): (d: nat)
    requires IsDigit(c)
    ensures d < 10 && DigitChar(d) == c
  {
    c as int - '0' as int
  }

  /** The number a string of decimal digits denotes; it always fits in as many digits as it has. */
  function Value(s: string): (n: nat)
    requires AllDigits(s)
    ensures n < Pow10(|s|)
  {
    if |s| == 0 then 0 else 10 * Value(s[..|s| - 1]) + DigitValue(s[|s| - 1])
  }

  /** `n` written with exactly `width` digits, zero-padded on the left (the low `width` digits). */
  function Pad(n: nat, width: nat): (s: string)
    ensures |s| == width && AllDigits(s)
  {
    if width == 0 then [] else Pad(n / 10, width - 1) + [DigitChar(n % 10)]
  }

  /** Reading back a padded number gives the number, as long as it fits in the width. */
  lemma {:induction false} ValueOfPad(n: nat, width: nat)
    requires n < Pow10(width)
    ensures Value(Pad(n, width)) == n
  {
    if width > 0 {
      var s := Pad(n, width);
      assert s[..width - 1] == Pad(n / 10, width - 1);
      ValueOfPad(n / 10, width - 1);
    }
  }

  /** Every digit string is the padded form of its value: fixed-width fields are canonical. */
  lemma {:induction false} PadOfValue(s: string)
    requires AllDigits(s)
    ensures Pad(Value(s), |s|) == s
  {
    if |s| > 0 {
      var init := s[..|s| - 1];
      assert AllDigits(init);
      var n := Value(s);
      assert n / 10 == Value(init);
      assert n % 10 == DigitValue(s[|s| - 1]);
      PadOfValue(init);
      assert s == init + [s[|s| - 1]];
    }
  }
}

=== FILE: errors.dfy ===
/** The errors `InSitu.extract_data` can raise, one constructor per distinct cause. */
module Errors {

  datatype Error =
      /** `ValueError`: the instrument code is not one of "V_p", "N_p", "B_z". */
    | UnknownInstrument(code: string)
      /** raised by the operational-time collaborator for the given mission key and start. */
    | OutOfOperationalTime(key: string, start: string)
      /** raised by the fetch collaborator (service unreachable, malformed reply); propagated as is. */
    | FetchFailed(reason: string)
      /** the fetched records do not have the shape the instrument's path expects. */
    | MalformedData
      /** `IndexError`: a vector record has no component at index 2. */
    | MissingComponent(stamp: string)
      /** `ValueError` from `strptime`/`to_datetime`: text does not match the layout. */
    | BadTimestamp(text: string)
      /** `OverflowError`: adding the offset leaves the datetime range (year 9999). */
    | DateOverflow
      /** `ValueError`: the file name does not end in ".csv". */
    | NotCsv(filename: string)
}

=== FILE: insitu.dfy ===
/**
 * `InSitu.extract_data` end to end: resolve the instrument, ask the operational-time check, fetch,
 * transform, and build the CSV (and optional PNG) destination. The fetch, the operational-time
 * check, the sentinel and the rounding are collaborators supplied by the caller; writing the files
 * is left to the caller of this model.
 */
module InSitu {
  import opened Wrappers
  import opened Errors
  import opened Calendar
  import opened Timestamps
  import opened Instruments
  import opened Transform
  import opened Paths

  /** The arguments of `get_hapi_data` other than the fixed server address. */
  datatype Request = Request(dataset: string, parameter: string, start: string, stop: string)

  /** Records as the fetch returns them. */
  datatype Fetched<V> = ScalarData(scalars: seq<ScalarRecord<V>>) | VectorData(vectors: seq<VectorRecord<V>>)

  /**
   * The code `extract_data` calls but does not define: `check_operational_time(key, start)` as a
   * yes/no answer, `get_hapi_data` as a function of the request that either returns records or
   * raises, the service's "no data" value, and `round(x, 3)`.
   */
  datatype Services<!V> = Services(
    inOperationalTime: (string, string) -> bool,
    fetch: Request -> Result<Fetched<V>, Error>,
    sentinel: V,
    round: V -> V)

  /** What one successful call produces: the table and where it (and the plot) would be written. */
  datatype Extraction<V> = Extraction(table: Table<V>, csvPath: string, pngPath: Option<string>)

  /** The proton codes take the scalar transformer, the field code the vector one. */
  function TransformFetched<V(==)>(config: Config, instrument: string, data: Fetched<V>, services: Services<V>)
    : (r: Result<Table<V>, Error>)
    ensures r.Success? ==> r.value.column == instrument
    ensures r.Success? ==> (config.shape == ScalarRecords <==> data.ScalarData?)
    ensures r.Success? && data.ScalarData? ==>
      forall i :: 0 <= i < |r.value.rows| ==> r.value.rows[i].value != services.sentinel
    ensures config.shape == ScalarRecords && data.ScalarData? ==>
      r == TransformScalar(data.scalars, instrument, services.sentinel)
    ensures config.shape == VectorRecords && data.VectorData? ==>
      r == TransformVector(data.vectors, instrument, services.sentinel, services.round)
    ensures (config.shape == ScalarRecords) != data.ScalarData? ==> r == Failure(MalformedData)
  {
    match data
    case ScalarData(records) =>
      if config.shape == ScalarRecords then TransformScalar(records, instrument, services.sentinel)
      else Failure(MalformedData)
    case VectorData(records) =>
      if config.shape == VectorRecords then TransformVector(records, instrument, services.sentinel, services.round)
      else Failure(MalformedData)
  }

  /** The PNG destination, asked for only when a plot is wanted. */
  function PngPath(csvPath: string, makePng: bool): (r: Result<Option<string>, Error>)
    ensures r.Success? ==> (r.value.Some? <==> makePng)
  {
    if makePng then
      var png :- ChangeExtension(csvPath, "png");
      Success(Some(png))
    else Success(None)
  }

  /**
   * `extract_data` up to the CSV write: resolve, check the operational time, fetch, transform,
   * then build the destination from the event date.
   */
  function ExtractCsv<V(==)>(start: string, stop: string, instrument: string,
                              customTargetDir: Option<string>, services: Services<V>)
    : (r: Result<(Table<V>, string), Error>)
    ensures r.Success? ==> Known(instrument) && r.value.0.column == instrument
    ensures r.Success? ==> services.inOperationalTime(Resolve(instrument).value.operationalKey, start)
    ensures r.Success? ==> Parse(StartLayout, start).Success?
    ensures r.Success? ==> var dir := TargetDir(customTargetDir); var path := r.value.1;
      && |path| >= |dir| + 4
      && path[..|dir|] == dir
      && path[|path| - 4..] == ".csv"
  {
    var config :- Resolve(instrument);
    if !services.inOperationalTime(config.operationalKey, start) then
      Failure(OutOfOperationalTime(config.operationalKey, start))
    else
      var data :- services.fetch(Request(config.dataset, config.parameter, start, stop));
      var table :- TransformFetched(config, instrument, data, services);
      var eventTime :- EventDate(start);
      var csvPath := Destination(TargetDir(customTargetDir), eventTime, config.mission, instrument);
      Success((table, csvPath))
  }

  /** `extract_data`: the CSV stage, then the PNG name when a plot is wanted. */
  function ExtractData<V(==)>(start: string, stop: string, instrument: string, makePng: bool,
                               customTargetDir: Option<string>, services: Services<V>)
    : (r: Result<Extraction<V>, Error>)
    ensures r.Success? ==> Known(instrument) && r.value.table.column == instrument
    ensures r.Success? ==> (r.value.pngPath.Some? <==> makePng)
  {
    var (table, csvPath) :- ExtractCsv(start, stop, instrument, customTargetDir, services);
    var pngPath :- PngPath(csvPath, makePng);
    Success(Extraction(table, csvPath, pngPath))
  }

  // ---------------------------------------------------------------- properties

  /** An unknown code is rejected before the operational-time check or the fetch is consulted. */
  lemma UnknownInstrumentFailsBeforeFetch<V>(start: string, stop: string, instrument: string, makePng: bool,
                                                 customTargetDir: Option<string>, services: Services<V>)
    requires !Known(instrument)
    ensures ExtractData(start, stop, instrument, makePng, customTargetDir, services)
         == Failure(UnknownInstrument(instrument))
  {
  }

  /** A start outside the mission's operational time is rejected whatever the fetch would return. */
  lemma OutOfOperationalTimeFailsBeforeFetch<V>(start: string, stop: string, instrument: string, makePng: bool,
                                                    customTargetDir: Option<string>, services: Services<V>)
    requires Known(instrument)
    requires !services.inOperationalTime(Resolve(instrument).value.operationalKey, start)
    ensures ExtractData(start, stop, instrument, makePng, customTargetDir, services)
         == Failure(OutOfOperationalTime(Resolve(instrument).value.operationalKey, start))
  {
  }

  /** A failing fetch fails the whole call with the fetch's own error. */
  lemma FetchFailurePropagates<V>(start: string, stop: string, instrument: string, makePng: bool,
                                  customTargetDir: Option<string>, services: Services<V>)
    requires Known(instrument)
    requires var c := Resolve(instrument).value;
      && services.inOperationalTime(c.operationalKey, start)
      && services.fetch(Request(c.dataset, c.parameter, start, stop)).Failure?
    ensures var c := Resolve(instrument).value;
      ExtractData(start, stop, instrument, makePng, customTargetDir, services)
        == Failure(services.fetch(Request(c.dataset, c.parameter, start, stop)).error)
  {
  }

  /**
   * What a successful CSV stage is made of: the operational-time check passed, the table is the
   * transform of the resolved fetch, and the file is `<dir><YYYYMMDD>_<mission>_<instrument>.csv`
   * with the date ten days after the start.
   */
  lemma ExtractCsvComposition<V>(start: string, stop: string, instrument: string,
                                 customTargetDir: Option<string>, services: Services<V>)
    requires ExtractCsv(start, stop, instrument, customTargetDir, services).Success?
    ensures var c := Resolve(instrument).value;
      var out := ExtractCsv(start, stop, instrument, customTargetDir, services).value;
      var fetched := services.fetch(Request(c.dataset, c.parameter, start, stop));
      && Resolve(instrument).Success?
      && services.inOperationalTime(c.operationalKey, start)
      && fetched.Success?
      && TransformFetched(c, instrument, fetched.value, services) == Success(out.0)
      && EventDate(start).Success?
      && out.1 == TargetDir(customTargetDir) + EventDate(start).value + "_" + c.mission + "_" + instrument + ".csv"
  {
  }

  /** Scalar-shaped dispatch: a successful table is the scalar records' rows, as `TransformScalarRows` gives them. */
  lemma ScalarDispatchRows<V>(config: Config, instrument: string, data: Fetched<V>, services: Services<V>)
    requires config.shape == ScalarRecords
    requires TransformFetched(config, instrument, data, services).Success?
    ensures data.ScalarData?
    ensures var records := data.scalars;
      var ix := KeptIndices(records, ScalarKept(services.sentinel));
      var table := TransformFetched(config, instrument, data, services).value;
      && |table.rows| == |ix|
      && forall k :: 0 <= k < |ix| ==>
           && records[ix[k]].value != services.sentinel
           && Parse(ScalarLayout, FixedWidth(records[ix[k]].stamp, ScalarStampWidth)).Success?
           && table.rows[k] == Row(Parse(ScalarLayout, FixedWidth(records[ix[k]].stamp, ScalarStampWidth)).value,
                                   records[ix[k]].value)
  {
    TransformScalarRows(data.scalars, instrument, services.sentinel);
  }

  /** Vector-shaped dispatch: a successful table is the vector records' rows, as `TransformVectorRows` gives them. */
  lemma VectorDispatchRows<V>(config: Config, instrument: string, data: Fetched<V>, services: Services<V>)
    requires config.shape == VectorRecords
    requires TransformFetched(config, instrument, data, services).Success?
    ensures data.VectorData?
    ensures var records := data.vectors;
      var ix := KeptIndices(records, VectorKept(services.sentinel));
      var table := TransformFetched(config, instrument, data, services).value;
      && |table.rows| == |ix|
      && forall k :: 0 <= k < |ix| ==>
           && records[ix[k]].components[ZComponent] != services.sentinel
           && Parse(VectorLayout, records[ix[k]].stamp).Success?
           && table.rows[k] == Row(Parse(VectorLayout, records[ix[k]].stamp).value,
                                   services.round(records[ix[k]].components[ZComponent]))
  {
    TransformVectorRows(data.vectors, instrument, services.sentinel, services.round);
  }

  /**
   * For a proton code, a successful call fetched scalar records, and its table is the scalar
   * dispatch of those records (whose rows `ScalarDispatchRows` gives).
   */
  lemma ProtonTableRows<V>(start: string, stop: string, instrument: string,
                           customTargetDir: Option<string>, services: Services<V>)
    requires instrument == "V_p" || instrument == "N_p"
    requires ExtractCsv(start, stop, instrument, customTargetDir, services).Success?
    ensures var c := Resolve(instrument).value;
      var fetched := services.fetch(Request(c.dataset, c.parameter, start, stop));
      && fetched.Success? && fetched.value.ScalarData?
      && TransformFetched(c, instrument, fetched.value, services)
         == Success(ExtractCsv(start, stop, instrument, customTargetDir, services).value.0)
  {
    ExtractCsvComposition(start, stop, instrument, customTargetDir, services);
    var c := Resolve(instrument).value;
    ScalarDispatchRows(c, instrument, services.fetch(Request(c.dataset, c.parameter, start, stop)).value, services);
  }

  /** For the field code, the written table is the vector dispatch of the fetched vector records. */
  lemma FieldTableRows<V>(start: string, stop: string, customTargetDir: Option<string>, services: Services<V>)
    requires ExtractCsv(start, stop, "B_z", customTargetDir, services).Success?
    ensures var c := Resolve("B_z").value;
      var fetched := services.fetch(Request(c.dataset, c.parameter, start, stop));
      && fetched.Success? && fetched.value.VectorData?
      && TransformFetched(c, "B_z", fetched.value, services)
         == Success(ExtractCsv(start, stop, "B_z", customTargetDir, services).value.0)
  {
    ExtractCsvComposition(start, stop, "B_z", customTargetDir, services);
    var c := Resolve("B_z").value;
    VectorDispatchRows(c, "B_z", services.fetch(Request(c.dataset, c.parameter, start, stop)).value, services);
  }

  /** A name ending in ".csv" always has a PNG name: the same stem with ".png". */
  lemma PngPathOfCsv(csvPath: string)
    requires |csvPath| >= 4 && csvPath[|csvPath| - 4..] == ".csv"
    ensures PngPath(csvPath, true) == Success(Some(csvPath[..|csvPath| - 4] + ".png"))
  {
    assert Lower(csvPath[|csvPath| - 4..]) == ".csv";
    ChangeExtensionIffCsvSuffix(csvPath, "png");
    var stem := csvPath[..|csvPath| - 4];
    assert stem + "." + "png" == stem + ".png";
  }

  /**
   * Asking for the plot never makes the call fail: the PNG name is the CSV name with ".csv"
   * replaced by ".png", and everything else is as without the plot.
   */
  lemma PngNameNeverFails<V>(start: string, stop: string, instrument: string,
                         customTargetDir: Option<string>, services: Services<V>)
    ensures var plain := ExtractData(start, stop, instrument, false, customTargetDir, services);
      var plotted := ExtractData(start, stop, instrument, true, customTargetDir, services);
      && (plotted.Success? <==> plain.Success?)
      && (plain.Success? ==>
            && plotted.value.table == plain.value.table
            && plotted.value.csvPath == plain.value.csvPath
            && plotted.value.pngPath
               == Some(plain.value.csvPath[..|plain.value.csvPath| - 4] + ".png"))
  {
    var csv := ExtractCsv(start, stop, instrument, customTargetDir, services);
    if csv.Success? {
      PngPathOfCsv(csv.value.1);
    }
  }
}

=== FILE: instruments.dfy ===
/** The instrument resolver at the top of `extract_data`. */
module Instruments {
  import opened Wrappers
  import opened Errors

  /** Which transformer handles the instrument's records. */
  datatype Shape = ScalarRecords | VectorRecords

  /** What an instrument code selects: where to fetch, which mission window to check, which path. */
  datatype Config = Config(
    dataset: string,
    parameter: string,
    mission: string,
    operationalKey: string,
    shape: Shape)

  /** The three accepted codes. */
  predicate Known(code: string) {
    code == "V_p" || code == "N_p" || code == "B_z"
  }

  /**
   * Resolves an instrument code. The proton codes share the SOHO CELIAS dataset and use the
   * code itself as the parameter; the field code reads the GSM field vector from Wind MFI.
   */
  function Resolve(code: string): (r: Result<Config, Error>)
    ensures r.Success? <==> Known(code)
    ensures r.Failure? ==> r.error == UnknownInstrument(code)
    ensures code == "V_p" || code == "N_p" ==>
      r == Success(Config("SOHO_CELIAS-PM_30S", code, "soho", "soho_celias", ScalarRecords))
    ensures code == "B_z" ==>
      r == Success(Config("WI_H0_MFI@0", "BGSM", "wind", "wind_mfi", VectorRecords))
    ensures r.Success? ==> (r.value.shape == ScalarRecords <==> code == "V_p" || code == "N_p")
  {
    if code == "V_p" then Success(Config("SOHO_CELIAS-PM_30S", "V_p", "soho", "soho_celias", ScalarRecords))
    else if code == "N_p" then Success(Config("SOHO_CELIAS-PM_30S", "N_p", "soho", "soho_celias", ScalarRecords))
    else if code == "B_z" then Success(Config("WI_H0_MFI@0", "BGSM", "wind", "wind_mfi", VectorRecords))
    else Failure(UnknownInstrument(code))
  }
}

=== FILE: paths.dfy ===
/**
 * The output-path half of `extract_data`: the event date (start + 10 days as `YYYYMMDD`), the
 * target directory, the CSV destination, and `_change_extension_to_png`.
 */
module Paths {
  import opened Wrappers
  import opened Errors
  import opened Digits
  import opened Calendar
  import opened Timestamps

  const DefaultTargetDir := "data_processed/in_situ/"

  /** Days between the requested start and the date that names the output file. */
  const EventOffsetDays := 10

  // ---------------------------------------------------------------- event date

  /** The date spelled by an eight-digit `YYYYMMDD` text. */
  function DecodeCompact(s: string): Date
    requires |s| == 8 && AllDigits(s)
  {
    Date(Value(s[0..4]), Value(s[4..6]), Value(s[6..8]))
  }

  /**
   * `strptime(start, "%Y-%m-%d %H:%M:%S") + timedelta(days = 10)` formatted with `%Y%m%d`.
   */
  function EventDate(start: string): (r: Result<string, Error>)
    ensures r.Success? ==> |r.value| == 8 && AllDigits(r.value) && ValidDate(DecodeCompact(r.value))
    ensures r.Success? ==> Parse(StartLayout, start).Success?
    ensures r.Failure? ==> r.error == BadTimestamp(start) || r.error == DateOverflow
    ensures Parse(StartLayout, start).Failure? ==> r == Failure(BadTimestamp(start))
  {
    var t :- Parse(StartLayout, start);
    var d :- ShiftDays(t.date, EventOffsetDays);
    Success(CompactDate(d))
  }

  /**
   * The event date names the unique valid date exactly ten days after the start's date; the time
   * of day plays no part. It fails only for unparsable starts and for starts from 9999-12-22 on,
   * whose tenth day after lies beyond year 9999.
   */
  lemma EventDateIsTenDaysLater(start: string)
    requires Parse(StartLayout, start).Success?
    ensures var d0 := Parse(StartLayout, start).value.date;
      && (EventDate(start).Failure? <==> d0.year == MaxYear && d0.month == 12 && d0.day >= 22)
      && (EventDate(start).Success? ==>
            DayNumber(DecodeCompact(EventDate(start).value)) == DayNumber(d0) + EventOffsetDays)
  {
    var d0 := Parse(StartLayout, start).value.date;
    var e := AddDays(d0, EventOffsetDays);
    AddDaysNumber(d0, EventOffsetDays);
    WithinRangeByNumber(e);
    if d0.year == MaxYear && d0.month == 12 && d0.day >= 22 {
      assert DayNumber(d0) >= DayNumber(Date(MaxYear, 12, 22));
    } else {
      if d0 != Date(MaxYear, 12, 21) {
        EarlierDayHasSmallerNumber(d0, Date(MaxYear, 12, 21));
      }
    }
    if EventDate(start).Success? {
      assert DecodeCompact(EventDate(start).value) == e;
    }
  }

  /** Two starts on the same day give the same event date, whatever their times. */
  lemma EventDateIgnoresTime(a: string, b: string)
    requires Parse(StartLayout, a).Success? && Parse(StartLayout, b).Success?
    requires Parse(StartLayout, a).value.date == Parse(StartLayout, b).value.date
    ensures EventDate(a) == EventDate(b)
  {
  }

  // ---------------------------------------------------------------- target directory and file name

  /** `custom_target_dir` normalised to end in '/', or the default when absent or empty. */
  function TargetDir(custom: Option<string>): (dir: string)
    ensures |dir| > 0 && dir[|dir| - 1] == '/'
    ensures custom.None? || custom.value == [] ==> dir == DefaultTargetDir
    ensures custom.Some? && custom.value != [] ==>
      |custom.value| <= |dir| <= |custom.value| + 1 && dir[..|custom.value|] == custom.value
    ensures custom.Some? && custom.value != [] && custom.value[|custom.value| - 1] == '/' ==>
      dir == custom.value
  {
    match custom
    case Some(c) =>
      if c == [] then DefaultTargetDir
      else if c[|c| - 1] == '/' then c
      else c + "/"
    case None => DefaultTargetDir
  }

  /**
   * The CSV destination `extract_data` writes to: the target directory, then the event date,
   * mission and instrument joined by '_', then ".csv".
   */
  function Destination(dir: string, eventTime: string, mission: string, instrument: string): (path: string)
    ensures |path| >= |dir| + 4 && path[..|dir|] == dir
    ensures path[|path| - 4..] == ".csv"
  {
    dir + eventTime + "_" + mission + "_" + instrument + ".csv"
  }

  // ---------------------------------------------------------------- extension rewriter

  /** `s.rfind(c)`: the last position holding `c`, or none. */
  function LastIndexOf(s: string, c: char): (r: Option<nat>)
    ensures r.None? ==> forall i :: 0 <= i < |s| ==> s[i] != c
    ensures r.Some? ==>
      r.value < |s| && s[r.value] == c && forall j :: r.value < j < |s| ==> s[j] != c
  {
    if |s| == 0 then None
    else if s[|s| - 1] == c then Some(|s| - 1)
    else LastIndexOf(s[..|s| - 1], c)
  }

  function LowerChar(c: char): char {
    if 'A' <= c <= 'Z' then (c as int - 'A' as int + 'a' as int) as char else c
  }

  /**
   * `str.lower()` on the ASCII letters. It keeps the length and it keeps dots, so a text lower-cases
   * to ".csv" exactly when it is a dot followed by "csv" in any mix of letter cases.
   */
  function Lower(s: string): (r: string)
    ensures |r| == |s|
    ensures r == ".csv" <==>
      && |s| == 4 && s[0] == '.'
      && (s[1] == 'c' || s[1] == 'C')
      && (s[2] == 's' || s[2] == 'S')
      && (s[3] == 'v' || s[3] == 'V')
  {
    var r := seq(|s|, i requires 0 <= i < |s| => LowerChar(s[i]));
    assert r == ".csv" <==> |r| == 4 && r[0] == '.' && r[1] == 'c' && r[2] == 's' && r[3] == 'v';
    r
  }

  /**
   * `_change_extension_to_png`: if the text from the last '.' is ".csv" in any letter case,
   * replace it with '.' and the new extension; otherwise (no dot included) raise.
   */
  function ChangeExtension(filename: string, extension: string): (r: Result<string, Error>)
    ensures r.Failure? ==> r.error == NotCsv(filename)
  {
    match LastIndexOf(filename, '.')
    case None => Failure(NotCsv(filename))
    case Some(i) =>
      if Lower(filename[i..]) == ".csv" then Success(filename[..i] + "." + extension)
      else Failure(NotCsv(filename))
  }

  /**
   * The rewrite succeeds exactly when the name ends in ".csv" ignoring case, and then it swaps
   * those four characters for '.' and the new extension.
   */
  lemma ChangeExtensionIffCsvSuffix(filename: string, extension: string)
    ensures ChangeExtension(filename, extension).Success? <==>
      |filename| >= 4 && Lower(filename[|filename| - 4..]) == ".csv"
    ensures ChangeExtension(filename, extension).Success? ==>
      ChangeExtension(filename, extension).value == filename[..|filename| - 4] + "." + extension
  {
    var n := |filename|;
    if n >= 4 && Lower(filename[n - 4..]) == ".csv" {
      assert LowerChar(filename[n - 4]) == '.';
      assert filename[n - 4] == '.';
      forall j | n - 4 < j < n
        ensures filename[j] != '.'
      {
        assert LowerChar(filename[j]) == Lower(filename[n - 4..])[j - (n - 4)];
      }
      assert LastIndexOf(filename, '.') == Some(n - 4);
    }
    match LastIndexOf(filename, '.')
    case None =>
    case Some(i) =>
      if Lower(filename[i..]) == ".csv" {
        assert |filename[i..]| == 4;
        assert i == n - 4;
      }
  }

  /** Every destination the builder produces can be given a new extension: the rewrite never raises. */
  lemma ChangeExtensionOfDestination(dir: string, eventTime: string, mission: string, instrument: string, extension: string)
    ensures var path := Destination(dir, eventTime, mission, instrument);
      ChangeExtension(path, extension)
        == Success(dir + eventTime + "_" + mission + "_" + instrument + "." + extension)
  {
    var path := Destination(dir, eventTime, mission, instrument);
    ChangeExtensionIffCsvSuffix(path, extension);
    assert Lower(".csv") == ".csv";
    assert path[..|path| - 4] == dir + eventTime + "_" + mission + "_" + instrument;
  }
}

=== FILE: scenarios.dfy ===
/** Worked instances of the model on concrete inputs, with real numbers as the measured values. */
module Scenarios {
  import opened Wrappers
  import opened Errors
  import opened Digits
  import opened Calendar
  import opened Timestamps
  import opened Instruments
  import opened Transform
  import opened Paths

  /** The service's "no data" value, -1.0E31. */
  const NoData: real := -10000000000000000000000000000000.0

  lemma SmallPads()
    ensures Pad(0, 2) == "00" && Pad(1, 2) == "01" && Pad(3, 2) == "03" && Pad(4, 2) == "04"
    ensures Pad(10, 2) == "10" && Pad(11, 2) == "11" && Pad(12, 2) == "12" && Pad(22, 2) == "22"
  {
  }

  lemma YearPads()
    ensures Pad(2021, 4) == "2021" && Pad(9999, 4) == "9999"
  {
  }

  lemma MarchFourthText()
    ensures DateText(Date(2021, 3, 4)) == "2021-03-04"
  {
    SmallPads();
    YearPads();
    assert "2021" + "-" + "03" + "-" + "04" == "2021-03-04";
  }

  lemma TenOClockText()
    ensures TimeText(DateTime(Date(2021, 3, 4), 10, 0, 0)) == "10:00:00"
  {
    SmallPads();
    assert "10" + ":" + "00" + ":" + "00" == "10:00:00";
  }

  lemma ScalarStampJoin()
    ensures "2021-03-04" + ['T'] + "10:00:00" + ".00" == "2021-03-04T10:00:00.00"
  {
    assert "2021-03-04" + ['T'] == "2021-03-04T";
    assert "2021-03-04T" + "10:00:00" == "2021-03-04T10:00:00";
  }

  lemma ScalarStampText()
    ensures Format(ScalarLayout, DateTime(Date(2021, 3, 4), 10, 0, 0)) == "2021-03-04T10:00:00.00"
  {
    var t := DateTime(Date(2021, 3, 4), 10, 0, 0);
    MarchFourthText();
    TenOClockText();
    ScalarStampJoin();
    assert Format(ScalarLayout, t) == DateText(t.date) + ['T'] + TimeText(t) + ".00";
  }

  lemma ScalarStampParses()
    ensures Parse(ScalarLayout, "2021-03-04T10:00:00.00") == Success(DateTime(Date(2021, 3, 4), 10, 0, 0))
  {
    ScalarStampText();
    ParseFormat(ScalarLayout, DateTime(Date(2021, 3, 4), 10, 0, 0));
  }

  /** Two V_p records, the second without data, give a one-row table. */
  lemma ProtonSpeedScenario()
    ensures TransformScalar([ScalarRecord("2021-03-04T10:00:00.00", 400.5),
                             ScalarRecord("2021-03-04T10:00:30.00", NoData)], "V_p", NoData)
         == Success(Table("V_p", [Row(DateTime(Date(2021, 3, 4), 10, 0, 0), 400.5)]))
  {
    var stamp := "2021-03-04T10:00:00.00";
    var records := [ScalarRecord(stamp, 400.5), ScalarRecord("2021-03-04T10:00:30.00", NoData)];
    assert records[..1] == [records[0]];
    assert Filter(records[..1], ScalarKept(NoData)) == [records[0]];
    assert Filter(records, ScalarKept(NoData)) == [records[0]];
    assert FixedWidth(stamp, ScalarStampWidth) == stamp;
    var readings := ScalarReadings(records, NoData);
    assert readings == [Reading(stamp, 400.5)];
    ScalarStampParses();
    var t := DateTime(Date(2021, 3, 4), 10, 0, 0);
    var rows := ParseRows(readings, ScalarLayout);
    assert rows.Success?;
    assert |rows.value| == 1 && rows.value[0] == Row(t, 400.5);
    assert rows.value == [Row(t, 400.5)];
  }

  lemma MidnightText(d: Date)
    requires ValidDate(d)
    ensures TimeText(DateTime(d, 0, 0, 0)) == "00:00:00"
  {
    SmallPads();
    assert "00" + ":" + "00" + ":" + "00" == "00:00:00";
  }

  lemma StartDatesText()
    ensures DateText(Date(2021, 3, 1)) == "2021-03-01"
    ensures DateText(Date(9999, 12, 22)) == "9999-12-22"
  {
    SmallPads();
    YearPads();
    assert "2021" + "-" + "03" + "-" + "01" == "2021-03-01";
    assert "9999" + "-" + "12" + "-" + "22" == "9999-12-22";
  }

  lemma FirstOfMarchStartJoin()
    ensures "2021-03-01" + [' '] + "00:00:00" == "2021-03-01 00:00:00"
  {
    assert "2021-03-01" + [' '] == "2021-03-01 ";
  }

  lemma FirstOfMarchStartText()
    ensures Format(StartLayout, DateTime(Date(2021, 3, 1), 0, 0, 0)) == "2021-03-01 00:00:00"
  {
    var t := DateTime(Date(2021, 3, 1), 0, 0, 0);
    StartDatesText();
    MidnightText(t.date);
    FirstOfMarchStartJoin();
    assert Format(StartLayout, t) == DateText(t.date) + [' '] + TimeText(t);
  }

  lemma LastYearStartJoin()
    ensures "9999-12-22" + [' '] + "00:00:00" == "9999-12-22 00:00:00"
  {
    assert "9999-12-22" + [' '] == "9999-12-22 ";
  }

  lemma LastYearStartText()
    ensures Format(StartLayout, DateTime(Date(9999, 12, 22), 0, 0, 0)) == "9999-12-22 00:00:00"
  {
    var t := DateTime(Date(9999, 12, 22), 0, 0, 0);
    StartDatesText();
    MidnightText(t.date);
    LastYearStartJoin();
    assert Format(StartLayout, t) == DateText(t.date) + [' '] + TimeText(t);
  }

  lemma TenDaysAfterFirstOfMarch()
    ensures ShiftDays(Date(2021, 3, 1), EventOffsetDays) == Success(Date(2021, 3, 11))
  {
    AddDaysNumber(Date(2021, 3, 1), EventOffsetDays);
    DayNumberInjective(AddDays(Date(2021, 3, 1), EventOffsetDays), Date(2021, 3, 11));
  }

  lemma CompactText()
    ensures CompactDate(Date(2021, 3, 11)) == "20210311"
  {
    SmallPads();
    YearPads();
    assert "2021" + "03" + "11" == "20210311";
  }

  lemma EventDateScenario()
    ensures EventDate("2021-03-01 00:00:00") == Success("20210311")
  {
    FirstOfMarchStartText();
    ParseFormat(StartLayout, DateTime(Date(2021, 3, 1), 0, 0, 0));
    TenDaysAfterFirstOfMarch();
    CompactText();
  }

  /** A start on 2021-03-01 with the default directory writes to the 2021-03-11 file. */
  lemma DefaultDestinationScenario()
    ensures Destination(TargetDir(None), "20210311", "soho", "V_p") == "data_processed/in_situ/20210311_soho_V_p.csv"
  {
  }

  lemma RewriteScenario(stem: string, suffix: string)
    requires |suffix| == 4
    ensures Lower(suffix) == ".csv" ==> ChangeExtension(stem + suffix, "png") == Success(stem + ".png")
    ensures Lower(suffix) != ".csv" ==> ChangeExtension(stem + suffix, "png") == Failure(NotCsv(stem + suffix))
  {
    var f := stem + suffix;
    assert f[|f| - 4..] == suffix && f[..|f| - 4] == stem;
    ChangeExtensionIffCsvSuffix(f, "png");
    assert stem + "." + "png" == stem + ".png";
  }

  lemma PngNameScenario()
    ensures ChangeExtension("data_processed/in_situ/20210311_soho_V_p" + ".csv", "png")
         == Success("data_processed/in_situ/20210311_soho_V_p" + ".png")
    ensures ChangeExtension("report" + ".CSV", "png") == Success("report" + ".png")
    ensures ChangeExtension("data.csv" + ".bak", "png") == Failure(NotCsv("data.csv" + ".bak"))
    ensures ChangeExtension("data" + "_csv", "png") == Failure(NotCsv("data" + "_csv"))
  {
    RewriteScenario("data_processed/in_situ/20210311_soho_V_p", ".csv");
    assert Lower(".CSV") == ".csv";
    RewriteScenario("report", ".CSV");
    assert Lower(".bak")[1] == 'b';
    RewriteScenario("data.csv", ".bak");
    assert Lower("_csv")[0] == '_';
    RewriteScenario("data", "_csv");
  }

  lemma UnknownCodeScenario()
    ensures Resolve("T_e") == Failure(UnknownInstrument("T_e"))
  {
  }

  /** Ten days after 9999-12-22 is past the last representable day. */
  lemma LastYearOverflowScenario()
    ensures EventDate("9999-12-22 00:00:00") == Failure(DateOverflow)
  {
    LastYearStartText();
    ParseFormat(StartLayout, DateTime(Date(9999, 12, 22), 0, 0, 0));
    EventDateIsTenDaysLater("9999-12-22 00:00:00");
  }
}

=== FILE: timestamps.dfy ===
/**
 * The fixed-width date-time layouts the module parses and prints. Each is
 * `YYYY-MM-DD<sep>hh:mm:ss` followed by a literal suffix. With separator 'T' this is the
 * extended complete representation of ISO 8601 (section 4.3.2 of ISO 8601:2004); the start
 * time has the same fields with a space in place of the 'T':
 *   - scalar records  `%Y-%m-%dT%H:%M:%S.00`   (separator 'T', suffix ".00"),
 *   - vector records  `%Y-%m-%dT%H:%M:%S.000Z` (separator 'T', suffix ".000Z"),
 *   - the start time  `%Y-%m-%d %H:%M:%S`      (separator ' ', no suffix),
 * and the compact `%Y%m%d` date used in output file names.
 */
module Timestamps {
  import opened Wrappers
  import opened Errors
  import opened Digits
  import opened Calendar

  datatype DateTime = DateTime(date: Date, hour: int, minute: int, second: int)

  /** A value Python's `datetime` accepts (whole seconds; the fraction is always zero here). */
  predicate ValidDateTime(t: DateTime) {
    && ValidDate(t.date)
    && 0 <= t.hour < 24
    && 0 <= t.minute < 60
    && 0 <= t.second < 60
  }

  /** The character between date and time, and the literal text after the seconds. */
  datatype Layout = Layout(separator: char, suffix: string)

  const ScalarLayout := Layout('T', ".00")
  const VectorLayout := Layout('T', ".000Z")
  const StartLayout := Layout(' ', "")

  /** Length of `YYYY-MM-DD?hh:mm:ss`. */
  const StemLength := 19

  // ---------------------------------------------------------------- three-field groups

  /** A `YYYY-MM-DD` or `hh:mm:ss` group: a `width`-digit field, then two 2-digit fields, `sep` between. */
  function Group(a: nat, width: nat, sep: char, b: nat, c: nat): (s: string)
    ensures |s| == width + 6
  {
    Pad(a, width) + [sep] + Pad(b, 2) + [sep] + Pad(c, 2)
  }

  predicate GroupShaped(s: string, width: nat, sep: char) {
    && |s| == width + 6
    && AllDigits(s[..width]) && s[width] == sep
    && AllDigits(s[width + 1..width + 3]) && s[width + 3] == sep
    && AllDigits(s[width + 4..])
  }

  /** The three numbers a shaped group spells. */
  function GroupFields(s: string, width: nat, sep: char): (nat, nat, nat)
    requires GroupShaped(s, width, sep)
  {
    (Value(s[..width]), Value(s[width + 1..width + 3]), Value(s[width + 4..]))
  }

  lemma GroupSlices(a: nat, width: nat, sep: char, b: nat, c: nat)
    ensures var s := Group(a, width, sep, b, c);
      && s[..width] == Pad(a, width) && s[width] == sep
      && s[width + 1..width + 3] == Pad(b, 2) && s[width + 3] == sep
      && s[width + 4..] == Pad(c, 2)
  {
    var s := Group(a, width, sep, b, c);
    var p := Pad(a, width) + [sep];
    var q := p + Pad(b, 2) + [sep];
    assert s == q + Pad(c, 2);
    assert s[width + 4..] == Pad(c, 2);
    assert s[..width + 4] == q;
    assert q[width + 1..width + 3] == Pad(b, 2);
    assert q[..width + 1] == p;
  }

  lemma GroupRoundTrip(a: nat, width: nat, sep: char, b: nat, c: nat)
    requires a < Pow10(width) && b < 100 && c < 100
    ensures GroupShaped(Group(a, width, sep, b, c), width, sep)
    ensures GroupFields(Group(a, width, sep, b, c), width, sep) == (a, b, c)
  {
    GroupSlices(a, width, sep, b, c);
    ValueOfPad(a, width);
    ValueOfPad(b, 2);
    ValueOfPad(c, 2);
  }

  lemma GroupCanonical(s: string, width: nat, sep: char)
    requires GroupShaped(s, width, sep)
    ensures var (a, b, c) := GroupFields(s, width, sep); Group(a, width, sep, b, c) == s
  {
    PadOfValue(s[..width]);
    PadOfValue(s[width + 1..width + 3]);
    PadOfValue(s[width + 4..]);
    assert s == s[..width] + [s[width]] + s[width + 1..width + 3] + [s[width + 3]] + s[width + 4..];
  }

  // ---------------------------------------------------------------- layouts

  /** `YYYY-MM-DD`. */
  function DateText(d: Date): string
    requires ValidDate(d)
  {
    Group(d.year, 4, '-', d.month, d.day)
  }

  /** `hh:mm:ss`. */
  function TimeText(t: DateTime): string
    requires ValidDateTime(t)
  {
    Group(t.hour, 2, ':', t.minute, t.second)
  }

  function Format(layout: Layout, t: DateTime): (s: string)
    requires ValidDateTime(t)
    ensures |s| == StemLength + |layout.suffix|
  {
    DateText(t.date) + [layout.separator] + TimeText(t) + layout.suffix
  }

  /** The text has the layout's shape: digits and punctuation in place and the exact suffix. */
  predicate Shaped(layout: Layout, s: string) {
    && |s| == StemLength + |layout.suffix|
    && GroupShaped(s[..10], 4, '-')
    && s[10] == layout.separator
    && GroupShaped(s[11..19], 2, ':')
    && s[19..] == layout.suffix
  }

  /** The fields a shaped text spells, before range checks. */
  function Fields(layout: Layout, s: string): DateTime
    requires Shaped(layout, s)
  {
    var (y, mo, d) := GroupFields(s[..10], 4, '-');
    var (h, mi, sec) := GroupFields(s[11..19], 2, ':');
    DateTime(Date(y, mo, d), h, mi, sec)
  }

  /**
   * `strptime` with the layout's pattern, fixed-width fields only: the text must have the
   * shape exactly and spell an existing date and time, otherwise it is a parse error.
   */
  function Parse(layout: Layout, s: string): (r: Result<DateTime, Error>)
    ensures r.Success? ==> ValidDateTime(r.value) && |s| == StemLength + |layout.suffix|
    ensures r.Success? ==> s[19..] == layout.suffix && s[10] == layout.separator
    ensures r.Failure? ==> r.error == BadTimestamp(s)
  {
    if Shaped(layout, s) && ValidDateTime(Fields(layout, s)) then Success(Fields(layout, s))
    else Failure(BadTimestamp(s))
  }

  /** Printing a valid datetime and parsing it back gives the same datetime. */
  lemma ParseFormat(layout: Layout, t: DateTime)
    requires ValidDateTime(t)
    ensures Parse(layout, Format(layout, t)) == Success(t)
  {
    var s := Format(layout, t);
    assert s[..10] == DateText(t.date);
    assert s[11..19] == TimeText(t);
    assert s[19..] == layout.suffix;
    GroupRoundTrip(t.date.year, 4, '-', t.date.month, t.date.day);
    GroupRoundTrip(t.hour, 2, ':', t.minute, t.second);
  }

  /** Whatever parses is the canonical printing of its result: the layout accepts nothing else. */
  lemma FormatParse(layout: Layout, s: string)
    requires Parse(layout, s).Success?
    ensures Format(layout, Parse(layout, s).value) == s
  {
    GroupCanonical(s[..10], 4, '-');
    GroupCanonical(s[11..19], 2, ':');
    assert s == s[..10] + [s[10]] + s[11..19] + s[19..];
  }

  /** A layout accepts exactly the canonical printings of valid datetimes, and reads each back. */
  lemma ParseAcceptsExactly(layout: Layout, s: string, t: DateTime)
    ensures Parse(layout, s) == Success(t) <==> ValidDateTime(t) && Format(layout, t) == s
  {
    if Parse(layout, s) == Success(t) {
      FormatParse(layout, s);
    }
    if ValidDateTime(t) && Format(layout, t) == s {
      ParseFormat(layout, t);
    }
  }

  /** `strftime("%Y%m%d")` of a date: eight digits that read back as year, month and day. */
  function CompactDate(d: Date): (s: string)
    requires ValidDate(d)
    ensures |s| == 8 && AllDigits(s)
    ensures Value(s[0..4]) == d.year && Value(s[4..6]) == d.month && Value(s[6..8]) == d.day
  {
    var s := Pad(d.year, 4) + Pad(d.month, 2) + Pad(d.day, 2);
    assert s[0..4] == Pad(d.year, 4) && s[4..6] == Pad(d.month, 2) && s[6..8] == Pad(d.day, 2);
    ValueOfPad(d.year, 4);
    ValueOfPad(d.month, 2);
    ValueOfPad(d.day, 2);
    s
  }
}

=== FILE: transform.dfy ===
/**
 * The record transformers `_transform_proton_data` (scalar records) and
 * `_transform_magnetic_field_data` (vector records). Measurement values are of an abstract
 * type `V` with a distinguished "no data" sentinel (the service's -1.0E31); rounding to three
 * decimals is the caller-supplied `round`.
 */
module Transform {
  import opened Wrappers
  import opened Errors
  import opened Timestamps

  /** A fetched record whose value is one number (proton speed or density). */
  datatype ScalarRecord<V> = ScalarRecord(stamp: string, value: V)

  /** A fetched record whose value is a vector of numbers (the magnetic field). */
  datatype VectorRecord<V> = VectorRecord(stamp: string, components: seq<V>)

  /** A surviving record reduced to its timestamp text and the value that goes in the table. */
  datatype Reading<V> = Reading(stamp: string, value: V)

  /** A row of the output table: the parsed `Time` and the instrument column's value. */
  datatype Row<V> = Row(time: DateTime, value: V)

  /** The output table: the columns are `Time` and `column`. */
  datatype Table<V> = Table(column: string, rows: seq<Row<V>>)

  /** Width of the `S22` byte-string field the scalar path stores each timestamp in. */
  const ScalarStampWidth := 22

  /** Index of the field's Z component in a vector record. */
  const ZComponent := 2

  // ---------------------------------------------------------------- filtering

  /** The list comprehension `[x for x in xs if keep(x)]`. */
  function Filter<T>(xs: seq<T>, keep: T -> bool): (r: seq<T>)
    ensures |r| <= |xs|
    ensures forall i :: 0 <= i < |r| ==> keep(r[i])
  {
    if |xs| == 0 then []
    else Filter(xs[..|xs| - 1], keep) + (if keep(xs[|xs| - 1]) then [xs[|xs| - 1]] else [])
  }

  /** The positions of the records the comprehension keeps, in increasing order. */
  function KeptIndices<T>(xs: seq<T>, keep: T -> bool): (ix: seq<int>)
    ensures forall k :: 0 <= k < |ix| ==> 0 <= ix[k] < |xs| && keep(xs[ix[k]])
    ensures forall k, l :: 0 <= k < l < |ix| ==> ix[k] < ix[l]
    ensures forall j :: 0 <= j < |xs| && keep(xs[j]) ==> j in ix
  {
    if |xs| == 0 then []
    else KeptIndices(xs[..|xs| - 1], keep) + (if keep(xs[|xs| - 1]) then [|xs| - 1] else [])
  }

  /**
   * The filter's output is the input at the kept positions, in input order: an order-preserving
   * subsequence that drops exactly the records `keep` rejects.
   */
  lemma {:induction false} FilterIsKeptSubsequence<T>(xs: seq<T>, keep: T -> bool)
    ensures |Filter(xs, keep)| == |KeptIndices(xs, keep)|
    ensures forall k :: 0 <= k < |KeptIndices(xs, keep)| ==>
      Filter(xs, keep)[k] == xs[KeptIndices(xs, keep)[k]]
  {
    if |xs| > 0 {
      var init := xs[..|xs| - 1];
      FilterIsKeptSubsequence(init, keep);
      var ix := KeptIndices(xs, keep);
      forall k | 0 <= k < |ix|
        ensures Filter(xs, keep)[k] == xs[ix[k]]
      {
        if k < |KeptIndices(init, keep)| {
          assert Filter(xs, keep)[k] == Filter(init, keep)[k];
          assert ix[k] == KeptIndices(init, keep)[k];
        }
      }
    }
  }

  /** Filtering a concatenation filters each part. */
  lemma {:induction false} FilterAppend<T>(a: seq<T>, b: seq<T>, keep: T -> bool)
    ensures Filter(a + b, keep) == Filter(a, keep) + Filter(b, keep)
    decreases |b|
  {
    if |b| > 0 {
      var b' := b[..|b| - 1];
      assert (a + b)[..|a + b| - 1] == a + b';
      FilterAppend(a, b', keep);
    } else {
      assert a + b == a;
    }
  }

  // ---------------------------------------------------------------- timestamp parsing

  /**
   * `pd.to_datetime(column, format = layout)`: every stamp must parse; the first one that does
   * not is a parse error for the whole table (malformed rows are never skipped).
   */
  function ParseRows<V>(readings: seq<Reading<V>>, layout: Layout): (r: Result<seq<Row<V>>, Error>)
    ensures r.Success? <==> forall i :: 0 <= i < |readings| ==> Parse(layout, readings[i].stamp).Success?
    ensures r.Success? ==> |r.value| == |readings|
    ensures r.Success? ==> forall i :: 0 <= i < |readings| ==>
      r.value[i] == Row(Parse(layout, readings[i].stamp).value, readings[i].value)
    ensures r.Failure? ==>
      exists i :: 0 <= i < |readings|
        && Parse(layout, readings[i].stamp) == Failure(r.error)
        && forall j :: 0 <= j < i ==> Parse(layout, readings[j].stamp).Success?
  {
    if |readings| == 0 then Success([])
    else
      var t :- Parse(layout, readings[0].stamp);
      var rest :- ParseRows(readings[1..], layout);
      Success([Row(t, readings[0].value)] + rest)
  }

  // ---------------------------------------------------------------- scalar path

  /** The stamp as stored in an `S22` field: bytes past the 22nd are cut off. */
  function FixedWidth(s: string, width: nat): (r: string)
    ensures |r| <= width && |r| <= |s| && r == s[..|r|]
    ensures |s| <= width ==> r == s
    ensures |s| > width ==> |r| == width
  {
    if |s| <= width then s else s[..width]
  }

  function ScalarKept<V(==)>(sentinel: V): ScalarRecord<V> -> bool {
    (r: ScalarRecord<V>) => r.value != sentinel
  }

  function ScalarReadings<V(==)>(records: seq<ScalarRecord<V>>, sentinel: V): (rs: seq<Reading<V>>)
  {
    var kept := Filter(records, ScalarKept(sentinel));
    seq(|kept|, i requires 0 <= i < |kept| => Reading(FixedWidth(kept[i].stamp, ScalarStampWidth), kept[i].value))
  }

  /**
   * `_transform_proton_data`: drop sentinel records, store stamps in 22-byte fields, parse them
   * with `%Y-%m-%dT%H:%M:%S.00`.
   */
  function TransformScalar<V(==)>(records: seq<ScalarRecord<V>>, instrument: string, sentinel: V)
    : (r: Result<Table<V>, Error>)
    ensures r.Success? ==> r.value.column == instrument
    ensures r.Success? ==> |r.value.rows| <= |records|
    ensures r.Success? ==> forall i :: 0 <= i < |r.value.rows| ==> r.value.rows[i].value != sentinel
    ensures r.Failure? ==> r.error.BadTimestamp?
  {
    var rows :- ParseRows(ScalarReadings(records, sentinel), ScalarLayout);
    Success(Table(instrument, rows))
  }

  // ---------------------------------------------------------------- vector path

  /**
   * The filtering comprehension of `_transform_magnetic_field_data` evaluates `record[1][2]` for every record in order, so the
   * first record without a third component raises `IndexError`.
   */
  function CheckComponents<V>(records: seq<VectorRecord<V>>): (r: Result<(), Error>)
    ensures r.Success? <==> forall i :: 0 <= i < |records| ==> |records[i].components| > ZComponent
    ensures r.Failure? ==>
      exists i :: 0 <= i < |records|
        && |records[i].components| <= ZComponent && r.error == MissingComponent(records[i].stamp)
  {
    if |records| == 0 then Success(())
    else if |records[0].components| <= ZComponent then Failure(MissingComponent(records[0].stamp))
    else CheckComponents(records[1..])
  }

  function VectorKept<V(==)>(sentinel: V): VectorRecord<V> -> bool {
    (r: VectorRecord<V>) => |r.components| > ZComponent && r.components[ZComponent] != sentinel
  }

  /** The readings the vector path tabulates: each surviving record's stamp and rounded Z component. */
  function ComponentReadings<V>(kept: seq<VectorRecord<V>>, round: V -> V): seq<Reading<V>>
    requires forall i :: 0 <= i < |kept| ==> |kept[i].components| > ZComponent
  {
    seq(|kept|, i requires 0 <= i < |kept| => Reading(kept[i].stamp, round(kept[i].components[ZComponent])))
  }

  /**
   * The row-building loop of `_transform_magnetic_field_data`: one reading per surviving record,
   * holding its stamp and its rounded Z component, which is exactly what the vector path tabulates.
   */
  method CollectComponents<V>(kept: seq<VectorRecord<V>>, round: V -> V) returns (rows: seq<Reading<V>>)
    requires forall i :: 0 <= i < |kept| ==> |kept[i].components| > ZComponent
    ensures rows == ComponentReadings(kept, round)
    ensures |rows| == |kept|
    ensures forall i :: 0 <= i < |kept| ==>
      rows[i] == Reading(kept[i].stamp, round(kept[i].components[ZComponent]))
  {
    rows := [];
    var n := 0;
    while n < |kept|
      invariant 0 <= n <= |kept|
      invariant |rows| == n
      invariant forall i :: 0 <= i < n ==>
        rows[i] == Reading(kept[i].stamp, round(kept[i].components[ZComponent]))
    {
      rows := rows + [Reading(kept[n].stamp, round(kept[n].components[ZComponent]))];
      n := n + 1;
    }
  }

  function VectorReadings<V(==)>(records: seq<VectorRecord<V>>, sentinel: V, round: V -> V): seq<Reading<V>>
  {
    ComponentReadings(Filter(records, VectorKept(sentinel)), round)
  }

  /**
   * `_transform_magnetic_field_data`: drop records whose Z component is the sentinel, keep the
   * rounded Z component, parse stamps with `%Y-%m-%dT%H:%M:%S.000Z`.
   */
  function TransformVector<V(==)>(records: seq<VectorRecord<V>>, instrument: string, sentinel: V, round: V -> V)
    : (r: Result<Table<V>, Error>)
    ensures r.Success? ==> r.value.column == instrument
    ensures r.Success? ==> |r.value.rows| <= |records|
    ensures r.Failure? ==> r.error.MissingComponent? || r.error.BadTimestamp?
    ensures (exists i :: 0 <= i < |records| && |records[i].components| <= ZComponent) ==>
      r.Failure? && r.error.MissingComponent?
  {
    var _ :- CheckComponents(records);
    var rows :- ParseRows(VectorReadings(records, sentinel, round), VectorLayout);
    Success(Table(instrument, rows))
  }

  // ---------------------------------------------------------------- properties

  /**
   * The scalar table succeeds exactly when every non-sentinel record's stored stamp parses, and
   * then its rows are those records, in input order, with parsed times and unchanged values.
   */
  lemma TransformScalarRows<V>(records: seq<ScalarRecord<V>>, instrument: string, sentinel: V)
    ensures var ix := KeptIndices(records, ScalarKept(sentinel));
      var r := TransformScalar(records, instrument, sentinel);
      && (r.Success? <==> forall i :: 0 <= i < |records| && records[i].value != sentinel ==>
            Parse(ScalarLayout, FixedWidth(records[i].stamp, ScalarStampWidth)).Success?)
      && (r.Success? ==> |r.value.rows| == |ix| && forall k :: 0 <= k < |ix| ==>
            r.value.rows[k] == Row(Parse(ScalarLayout, FixedWidth(records[ix[k]].stamp, ScalarStampWidth)).value,
                                   records[ix[k]].value))
  {
    var ix := KeptIndices(records, ScalarKept(sentinel));
    var readings := ScalarReadings(records, sentinel);
    FilterIsKeptSubsequence(records, ScalarKept(sentinel));
    assert forall k :: 0 <= k < |ix| ==>
      readings[k] == Reading(FixedWidth(records[ix[k]].stamp, ScalarStampWidth), records[ix[k]].value);
    forall i | 0 <= i < |records| && records[i].value != sentinel
      ensures exists k :: 0 <= k < |ix| && ix[k] == i
    {
      assert ScalarKept(sentinel)(records[i]);
      assert i in ix;
    }
  }

  /**
   * The vector table succeeds exactly when every record has a Z component and every record whose
   * Z component is not the sentinel has a parsable stamp; its rows are those records, in input
   * order, each holding its own record's rounded Z component.
   */
  lemma TransformVectorRows<V>(records: seq<VectorRecord<V>>, instrument: string, sentinel: V, round: V -> V)
    ensures var ix := KeptIndices(records, VectorKept(sentinel));
      var r := TransformVector(records, instrument, sentinel, round);
      && (r.Success? <==>
            && (forall i :: 0 <= i < |records| ==> |records[i].components| > ZComponent)
            && (forall i :: 0 <= i < |records| && records[i].components[ZComponent] != sentinel ==>
                  Parse(VectorLayout, records[i].stamp).Success?))
      && (r.Success? ==> |r.value.rows| == |ix| && forall k :: 0 <= k < |ix| ==>
            && records[ix[k]].components[ZComponent] != sentinel
            && r.value.rows[k] == Row(Parse(VectorLayout, records[ix[k]].stamp).value,
                                      round(records[ix[k]].components[ZComponent])))
  {
    var ix := KeptIndices(records, VectorKept(sentinel));
    var readings := VectorReadings(records, sentinel, round);
    FilterIsKeptSubsequence(records, VectorKept(sentinel));
    assert forall k :: 0 <= k < |ix| ==>
      readings[k] == Reading(records[ix[k]].stamp, round(records[ix[k]].components[ZComponent]));
    forall i | 0 <= i < |records| && |records[i].components| > ZComponent
                 && records[i].components[ZComponent] != sentinel
      ensures exists k :: 0 <= k < |ix| && ix[k] == i
    {
      assert VectorKept(sentinel)(records[i]);
      assert i in ix;
    }
  }

  /** Filters that agree position by position keep the same positions. */
  lemma {:induction false} KeptIndicesAgree<T, U>(xs: seq<T>, keepX: T -> bool, ys: seq<U>, keepY: U -> bool)
    requires |xs| == |ys|
    requires forall i :: 0 <= i < |xs| ==> keepX(xs[i]) == keepY(ys[i])
    ensures KeptIndices(xs, keepX) == KeptIndices(ys, keepY)
  {
    if |xs| > 0 {
      KeptIndicesAgree(xs[..|xs| - 1], keepX, ys[..|ys| - 1], keepY);
    }
  }

  /**
   * The vector path looks at nothing but the stamp and the Z component: records that agree on
   * those give the same table or the same error, whatever their other components hold.
   */
  lemma VectorUsesOnlyZ<V>(records: seq<VectorRecord<V>>, others: seq<VectorRecord<V>>,
                                instrument: string, sentinel: V, round: V -> V)
    requires |records| == |others|
    requires forall i :: 0 <= i < |records| ==>
      && records[i].stamp == others[i].stamp
      && |records[i].components| > ZComponent && |others[i].components| > ZComponent
      && records[i].components[ZComponent] == others[i].components[ZComponent]
    ensures TransformVector(records, instrument, sentinel, round)
         == TransformVector(others, instrument, sentinel, round)
  {
    KeptIndicesAgree(records, VectorKept(sentinel), others, VectorKept(sentinel));
    FilterIsKeptSubsequence(records, VectorKept(sentinel));
    FilterIsKeptSubsequence(others, VectorKept(sentinel));
    assert VectorReadings(records, sentinel, round) == VectorReadings(others, sentinel, round);
  }

  /**
   * The 22-byte field makes the scalar path judge a stamp by its first 22 characters only: a
   * canonical scalar stamp followed by anything (the ".000Z" vector form, say) still parses.
   */
  lemma ScalarStampCutToWidth(t: DateTime, extra: string)
    requires ValidDateTime(t)
    ensures Parse(ScalarLayout, FixedWidth(Format(ScalarLayout, t) + extra, ScalarStampWidth)) == Success(t)
  {
    var s := Format(ScalarLayout, t);
    assert (s + extra)[..ScalarStampWidth] == s;
    ParseFormat(ScalarLayout, t);
  }
}

=== FILE: wrappers.dfy ===
/** Failure-compatible result type used for every operation that can raise in the source. */
module Wrappers {

  datatype Option<+T> = None | Some(value: T)

  /** Either a computed value or the error the source would raise. */
  datatype Result<+T, +E> = Success(value: T) | Failure(error: E) {

    predicate IsFailure() {
      Failure?
    }

    function PropagateFailure<U>(): Result<U, E>
      requires Failure?
    {
      Failure(error)
    }

    function Extract(): T
      requires Success?
    {
      value
    }
  }
}
